=== FILE: README.md ===
# RDD_Comments_tracker — the pure core, in Dafny

`RDD_Comments_tracker.py` listens to a Reddit comment stream. It keeps each
comment whose lowercased body contains one of the configured trigger words.
Kept comments go into a per-author JSON store whose file name carries the
current date. Almost all of the script is I/O. Inside its loop there is a
small sequential core, and this project models that core as pure functions
over immutable values:

- **Triggers** (`triggers.dfy`): each line of the trigger file is stripped
  (`str.strip()`) and lowercased (`str.lower()`). A comment is kept when
  `any(word in body for word in triggers)` holds for its lowercased body.
- **Store** (`store.dfy`): the in-memory list of records `{id, author_name,
  author_id, subReddit, commentsList}` and its seed template. It also holds
  the single update applied to a kept comment. If the author is already in
  the store, the text is appended unless that author already has it. If the
  author is new, a record with `id = max(ids) + 1` is appended and the store
  file is written. The `next(...)`/bare-`except` lookup is modelled as
  `FindByAuthor`, which returns an `Option`. The update returns the new store
  together with a write flag.
- **Rotation** (`rotation.dfy`): the `YYYYMMDD` stamp of
  `strftime("%Y%m%d")`, the names `outJsonFile<stamp>.json`,
  `log<stamp>.txt` (at start-up) and `Log<stamp>.txt` (after a date change),
  and the date check at the top of the loop.
- **Ingest** (`ingest.dfy`): one comment of the stream (match, then store),
  and a stretch of the stream consumed in order.
- **Outcomes** (`outcomes.dfy`): `Option` and `Result`.

The store invariant `Store.Valid` holds of the seed and is kept by every
update. It says the store is non-empty, author ids are unique, record ids
strictly increase along the store (so they are unique, and a new id is above
every earlier one), and no author holds the same text twice.

The current date is a parameter, not a clock reading. A streamed comment is a
plain value `Comment(authorName, authorId, body, subReddit)`. A file write is
the `write` flag of an update; the JSON contents are not modelled.

The model follows the code on these points:

- The seed's placeholder record (`id 1`, author `JohnDoe`) stays first in the
  store and is never removed. So `Ingest.Scenario`, which starts from the
  seed with triggers `help`/`bug` and three comments from `u1`, `u1`, `u2`,
  ends with three records.
- After a date change the log name starts with a capital `Log`. The start-up
  name starts with `log`.
- A date change only re-points the file names. The in-memory list `data` is
  not reset to a new seed. The date check only runs at the top of the outer loop,
  which is re-entered only after an exception.
- Only the new-author path writes the file. Appending to an existing author
  changes memory alone.

## Model

| member | source | states |
|---|---|---|
| Triggers.Strip | RDD_Comments_tracker.py:32 | `line.strip()`: the result has no whitespace at either end, and it is a slice of the line with only whitespace cut off on both sides |
| Triggers.StripOfStripped | RDD_Comments_tracker.py:32 | stripping a string with no whitespace at its ends returns it unchanged |
| Triggers.StripBlank | RDD_Comments_tracker.py:32 | a line made only of whitespace strips to the empty string |
| Triggers.Lower | RDD_Comments_tracker.py:33 | `str.lower()`: same length, every character already lower case, equal to the input up to case at each position, whitespace positions kept |
| Triggers.LowerOfLower | RDD_Comments_tracker.py:33 | lowercasing a lower-case string returns it unchanged |
| Triggers.Normalize | RDD_Comments_tracker.py:32-33 | `line.strip()` then `.lower()`: the result is stripped and lower case, and it is the lowercase of the part of the line between whitespace at both ends |
| Triggers.NormalizeUnique | RDD_Comments_tracker.py:32-33 | any stripped lower-case string that is the lowercased middle of the line equals the normalised line, so the contract above fixes the result |
| Triggers.NormalizeFixesTriggers | RDD_Comments_tracker.py:32-33 | every normalised trigger equals its own strip-then-lowercase |
| Triggers.NormalizeIdempotent | RDD_Comments_tracker.py:32-33 | normalising a line twice gives the same trigger as normalising it once |
| Triggers.NormalizeTriggers | RDD_Comments_tracker.py:31-33 | one trigger per line of the file, in file order: entry `k` is line `k` normalised, and each is stripped and lower case |
| Triggers.NormalizeTriggersIdempotent | RDD_Comments_tracker.py:31-33 | normalising the whole trigger list twice is the same as once |
| Triggers.Contains | RDD_Comments_tracker.py:138 | `word in text` is true exactly when `word` occurs in `text` at some start index |
| Triggers.Matches | RDD_Comments_tracker.py:138 | `any(word in text ...)` is true exactly when some trigger is a substring of the text |
| Triggers.NoTriggersNeverMatch | RDD_Comments_tracker.py:138 | an empty trigger list keeps no comment |
| Triggers.EmptyTriggerMatchesAll | RDD_Comments_tracker.py:138 | an empty trigger is a substring of every text, so it keeps every comment |
| Triggers.BlankLineMatchesAll | RDD_Comments_tracker.py:31-33 | a blank line in the trigger file makes every comment match |
| Store.Seed | RDD_Comments_tracker.py:96-107 | the template is one record with id 1, author id `JohnDoe` and comments `["None"]`, and it satisfies the store invariant |
| Store.SeedAuthor | RDD_Comments_tracker.py:101 | the seed holds author `JohnDoe` and no other |
| Store.FindByAuthor | RDD_Comments_tracker.py:151 | the `next(...)` lookup returns the index of the first record with that author id, and returns `None` exactly when no record has it |
| Store.MaxId | RDD_Comments_tracker.py:158 | `max(data, key=id)` yields an id held by some record and at least every other id |
| Store.RecordComment | RDD_Comments_tracker.py:149-169 | known author: text appended at the end unless already present, other records and the record's id, name and subreddit unchanged, no write; new author: one record appended with id `max(ids) + 1`, above all others, the given fields and `[text]`, with a write; fails only for a new author on an empty store |
| Store.MaxIdIsLast | RDD_Comments_tracker.py:158-160 | on a store with increasing ids the new id is the last record's id plus one |
| Store.IncreasingIdsAreUnique | RDD_Comments_tracker.py:160 | increasing ids are unique ids |
| Store.AppendedKeepsValid | RDD_Comments_tracker.py:153-154 | appending a text to an existing author keeps the store invariant |
| Store.NewRecordKeepsValid | RDD_Comments_tracker.py:158-168 | appending a record for a new author with a larger id keeps the store invariant |
| Store.RecordCommentPreservesValid | RDD_Comments_tracker.py:151-168 | on a store grown from the seed an update never fails, and it keeps author ids unique, ids increasing and comments free of repeats |
| Store.RecordCommentIdempotent | RDD_Comments_tracker.py:153-154 | storing the same author and text a second time changes nothing and writes nothing |
| Store.SameTextTwoAuthors | RDD_Comments_tracker.py:151-168 | two different new authors with identical text, whatever their names and subreddits, each get a record holding that text |
| Store.RecordCommentStores | RDD_Comments_tracker.py:151-168 | after an update the lookup finds the author, and the text is among that record's comments |
| Store.RecordCommentExtends | RDD_Comments_tracker.py:151-168 | an update loses no record, changes no record's id, name, author id or subreddit, and only extends comment lists at their end |
| Store.StoredStable | RDD_Comments_tracker.py:151-154 | once a text is stored under an author, it stays stored as the store grows: the lookup keeps finding the same record |
| Rotation.Digits | RDD_Comments_tracker.py:60 | a zero-padded field has exactly the requested width, holds only digits, and reads back to the number |
| Rotation.DateStamp | RDD_Comments_tracker.py:60 | `strftime("%Y%m%d")` gives eight digits that parse back to the same date |
| Rotation.DateStampInjective | RDD_Comments_tracker.py:115-116 | different dates give different stamps |
| Rotation.StoreFileName | RDD_Comments_tracker.py:60 | `'outJsonFile' + stamp + '.json'`, from which the date can be read back |
| Rotation.InitialLogFileName | RDD_Comments_tracker.py:61 | `'log' + stamp + '.txt'`, from which the date can be read back |
| Rotation.RotatedLogFileName | RDD_Comments_tracker.py:117 | `'Log' + stamp + '.txt'`, from which the date can be read back |
| Rotation.LogNamesDiffer | RDD_Comments_tracker.py:117 | the start-up log name and the rotated log name of one day differ |
| Rotation.Start | RDD_Comments_tracker.py:58-61 | before the loop, `prev_date` is today and both names carry today's stamp |
| Rotation.CheckRotation | RDD_Comments_tracker.py:113-119 | on a new date both names carry that date and `prev_date` becomes it; on the same date nothing changes; consistent names stay consistent, and a rotation never reuses the previous store file |
| Rotation.CheckRotationIdempotent | RDD_Comments_tracker.py:115-119 | checking the same date twice rotates at most once |
| Ingest.ProcessComment | RDD_Comments_tracker.py:133-169 | only a comment some trigger matches changes the store or writes; it writes exactly when the author is new; a known author's record takes the text as the dedup-append does, and every other author's record stays as it was; a kept comment ends up under its author's record as its lowercased body; the store only grows, by one record exactly when it writes; a valid store stays valid; it fails only for a kept comment on an empty store |
| Ingest.RecordCommentStep | RDD_Comments_tracker.py:149-169 | storing a kept comment keeps a valid store valid without failing, only adds to the store, and leaves the text under its author |
| Ingest.Consume | RDD_Comments_tracker.py:130-169 | over a stretch of the stream the store only grows and the number of writes equals the number of new records; the record of an author with no kept comment in the stretch stays as it was; from a valid store there is no fault, the store stays valid and every comment some trigger matches ends up under its author's record; a stretch with no kept comment changes nothing |
| Ingest.KeptStayStored | RDD_Comments_tracker.py:130-169 | a kept comment stays stored while the rest of the stretch is processed |
| Ingest.UntouchedStayAlone | RDD_Comments_tracker.py:130-169 | a record whose author sends no kept comment is left alone by the first comment and by the rest of the stretch |
| Ingest.RepeatedCommentIsNoOp | RDD_Comments_tracker.py:153 | a comment repeated right after itself changes nothing and writes nothing |
| Ingest.NewAuthorKept | RDD_Comments_tracker.py:156-168 | a kept comment from a new author appends a record with the last id plus one and writes the file |
| Ingest.KnownTextDropped | RDD_Comments_tracker.py:153 | a comment whose lowercased body its author already has is a no-op |
| Ingest.TwinsThenNewAuthor | RDD_Comments_tracker.py:130-169 | two comments from one new author that agree up to case, then one from another new author, give two new records and two writes |
| Ingest.Scenario | RDD_Comments_tracker.py:130-169 | triggers `help`/`bug` with comments `I need HELP please`, `I need help please` (u1) and `found a bug` (u2) end with the seed record first, then u1's record with id 2 holding one comment, then u2's with id 3 holding one, after two writes |

## Left out

- The praw client, credentials and the comment stream (lines 41-54, 130):
  they are a network library. Comments are plain values.
- Comments by deleted accounts (lines 133-134): for them `comment.author`
  is `None`, so `str(comment.author.name)` raises `AttributeError` before the
  trigger test. The error reaches the outer `except Exception` (line 179) and
  ends the pass, even when no trigger matches. `Ingest.Comment` always has an
  author, so the model never takes this path.
- Command-line parsing (lines 17-27) and console prints (lines 35-36,
  141-146): they have no effect on the store.
- Reading the trigger file and splitting it into lines (lines 30-31): this is
  file I/O. The model starts from the list of lines.
- File reads and writes, `json.load`/`json.dump`, `os.path.getsize` and
  `writeTemplate`'s file output (lines 86-110, 122-126, 169): these are I/O. A
  write is the `write` flag of an update. Two quirks are not modelled. Opening
  the store in `'a+'` mode positions at the end, so `json.load` reads nothing.
  After `writeTemplate`, `data` is not bound on that pass.
- Swapping the logging handler in `change_log_file` and `logger.error`
  (lines 63-83, 180): these are global logger state in a foreign library.
- The outer retry loop, `time.sleep(60)`, the `KeyboardInterrupt` shutdown and
  `datetime.date.today()` (lines 112-113, 173-181): these are control flow and
  clock reads. The date is a parameter. `Ingest.Consume` stops at the first
  fault and reports it, which is where the listener falls back to its outer
  `except`.
- Records with missing keys, and ids that are not integers, as a hand-edited
  JSON file could hold: the record datatype is always well-formed.
- Triggers.Lower: lowercases only the ASCII and Latin-1 upper-case letters.
  Python's `str.lower()` also maps the rest of Unicode, including mappings
  that change length. These are not modelled.
- Rotation.DateStamp: pads the year to four digits, as CPython 3.13 and later
  do. Older CPython builds on glibc print years below 1000 without padding.

=== FILE: ingest.dfy ===
/** One pass of the listening loop over the comment stream: each comment
    whose lowercased body contains a trigger is stored under its author. */
module Ingest {
  import opened Outcomes
  import opened Triggers
  import opened Store

  /** The fields the loop reads from a streamed comment. */
  datatype Comment = Comment(authorName: string, authorId: string, body: string, subReddit: string)

  /** Handles one streamed comment. Only a comment some trigger matches
      changes the store or writes the file; a kept comment ends up among
      the comments of its author's record, under its lowercased body. The
      store only grows, by one record exactly when the file is written, a
      known author's record takes the text as `RecordComment` appends it,
      every other author's record stays as it was, a valid store stays
      valid, and only a kept comment on an empty store fails. */
  function ProcessComment(triggers: seq<string>, store: Store, c: Comment): (r: Result<Update, StoreError>)
    ensures r.Failure? <==> Matches(triggers, Lower(c.body)) && |store| == 0
    ensures Valid(store) ==> r.Success? && Valid(r.value.store)
    ensures r != Success(Update(store, false)) ==> Matches(triggers, Lower(c.body))
    ensures r.Success? ==> (r.value.write <==> Matches(triggers, Lower(c.body)) && !HasAuthor(store, c.authorId))
    ensures r.Success? ==>
              && Extends(store, r.value.store)
              && |r.value.store| == |store| + (if r.value.write then 1 else 0)
    ensures r.Success? && Matches(triggers, Lower(c.body)) ==> Stored(r.value.store, c.authorId, Lower(c.body))
    ensures Matches(triggers, Lower(c.body)) && FindByAuthor(store, c.authorId).Some? ==>
              r.Success? && AppendedTo(store, r.value.store, FindByAuthor(store, c.authorId).value, Lower(c.body))
    ensures r.Success? ==> forall j :: 0 <= j < |store| && store[j].authorId != c.authorId ==> r.value.store[j] == store[j]
  {
    var text := Lower(c.body);
    if Matches(triggers, text) then
      RecordCommentStep(store, c, text);
      RecordComment(store, c.authorName, c.authorId, c.subReddit, text)
    else
      ExtendsReflexive(store);
      Success(Update(store, false))
  }

  /** What storing `text` for the author of `c` does: it keeps a valid
      store valid without failing, only adds to the store, and leaves the
      text under the author's record. */
  lemma {:induction false} RecordCommentStep(store: Store, c: Comment, text: string)
    ensures var r := RecordComment(store, c.authorName, c.authorId, c.subReddit, text);
            && (Valid(store) ==> r.Success? && Valid(r.value.store))
            && (r.Success? ==> Extends(store, r.value.store) && Stored(r.value.store, c.authorId, text))
  {
    if RecordComment(store, c.authorName, c.authorId, c.subReddit, text).Success? {
      RecordCommentExtends(store, c.authorName, c.authorId, c.subReddit, text);
      RecordCommentStores(store, c.authorName, c.authorId, c.subReddit, text);
    }
    if Valid(store) {
      RecordCommentPreservesValid(store, c.authorName, c.authorId, c.subReddit, text);
    }
  }

  /** The state after a stretch of the stream: the store, the number of
      file writes made, and the fault that ended the stretch, if any. */
  datatype Run = Run(store: Store, writes: nat, fault: Option<StoreError>)

  /** A comment of the stretch that some trigger matches. */
  predicate Kept(triggers: seq<string>, c: Comment) {
    Matches(triggers, Lower(c.body))
  }

  /** No comment of `comments` that is kept comes from `authorId`. */
  predicate Untouched(triggers: seq<string>, comments: seq<Comment>, authorId: string) {
    forall k :: 0 <= k < |comments| && Kept(triggers, comments[k]) ==> comments[k].authorId != authorId
  }

  /** Feeds `comments` through in order, stopping at the first fault (which
      the listener hands to its outer `except`). From a valid store every
      kept comment ends up under its author's record; the record of an
      author with no kept comment in the stretch stays as it was; a stretch
      in which no comment is kept changes nothing. */
  function Consume(triggers: seq<string>, store: Store, comments: seq<Comment>): (r: Run)
    ensures Valid(store) ==> r.fault.None? && Valid(r.store)
    ensures Extends(store, r.store)
    ensures |r.store| == |store| + r.writes
    ensures Valid(store) ==>
              forall k :: 0 <= k < |comments| && Kept(triggers, comments[k]) ==>
                Stored(r.store, comments[k].authorId, Lower(comments[k].body))
    ensures forall j :: 0 <= j < |store| && Untouched(triggers, comments, store[j].authorId) ==> r.store[j] == store[j]
    ensures (forall k :: 0 <= k < |comments| ==> !Kept(triggers, comments[k])) ==> r == Run(store, 0, None)
    decreases |comments|
  {
    if |comments| == 0 then
      Run(store, 0, None)
    else
      match ProcessComment(triggers, store, comments[0])
      case Failure(e) =>
        Run(store, 0, Some(e))
      case Success(u) =>
        var rest := Consume(triggers, u.store, comments[1..]);
        ExtendsTransitive(store, u.store, rest.store);
        KeptStayStored(triggers, store, comments, u, rest.store);
        UntouchedStayAlone(triggers, store, comments, u, rest.store);
        Run(rest.store, rest.writes + (if u.write then 1 else 0), rest.fault)
  }

  /** The step of `Consume` for its stored-comments clause: the first
      comment is stored by `ProcessComment` and stays stored as the rest of
      the stretch grows the store; the others are stored by the rest. */
  lemma {:induction false} KeptStayStored(triggers: seq<string>, store: Store, comments: seq<Comment>, u: Update, final: Store)
    requires |comments| > 0 && ProcessComment(triggers, store, comments[0]) == Success(u)
    requires Extends(u.store, final)
    requires Valid(u.store) ==>
               forall k :: 0 <= k < |comments[1..]| && Kept(triggers, comments[1..][k]) ==>
                 Stored(final, comments[1..][k].authorId, Lower(comments[1..][k].body))
    ensures Valid(store) ==>
              forall k :: 0 <= k < |comments| && Kept(triggers, comments[k]) ==>
                Stored(final, comments[k].authorId, Lower(comments[k].body))
  {
    if Valid(store) {
      forall k | 0 <= k < |comments| && Kept(triggers, comments[k])
        ensures Stored(final, comments[k].authorId, Lower(comments[k].body))
      {
        if k == 0 {
          StoredStable(u.store, final, comments[0].authorId, Lower(comments[0].body));
        } else {
          assert comments[k] == comments[1..][k - 1];
        }
      }
    }
  }

  /** The step of `Consume` for its untouched-records clause: a record
      whose author has no kept comment in the stretch is left alone by the
      first comment and then by the rest. */
  lemma {:induction false} UntouchedStayAlone(triggers: seq<string>, store: Store, comments: seq<Comment>, u: Update, final: Store)
    requires |comments| > 0 && ProcessComment(triggers, store, comments[0]) == Success(u)
    requires |store| <= |u.store| <= |final|
    requires forall j :: 0 <= j < |u.store| && Untouched(triggers, comments[1..], u.store[j].authorId) ==> final[j] == u.store[j]
    ensures forall j :: 0 <= j < |store| && Untouched(triggers, comments, store[j].authorId) ==> final[j] == store[j]
  {
    forall j | 0 <= j < |store| && Untouched(triggers, comments, store[j].authorId)
      ensures final[j] == store[j]
    {
      assert u.store[j] == store[j];
      assert Untouched(triggers, comments[1..], u.store[j].authorId) by {
        forall k | 0 <= k < |comments[1..]| && Kept(triggers, comments[1..][k])
          ensures comments[1..][k].authorId != u.store[j].authorId
        {
          assert comments[1..][k] == comments[k + 1];
        }
      }
    }
  }

  /** Consuming a non-empty stretch: the first comment, then the rest. */
  lemma ConsumeFirst(triggers: seq<string>, store: Store, comments: seq<Comment>)
    requires |comments| > 0 && ProcessComment(triggers, store, comments[0]).Success?
    ensures var u := ProcessComment(triggers, store, comments[0]).value;
            var r := Consume(triggers, u.store, comments[1..]);
            Consume(triggers, store, comments) == Run(r.store, r.writes + (if u.write then 1 else 0), r.fault)
  {
  }

  /** A comment repeated straight after itself adds nothing the first copy
      did not. */
  lemma {:induction false} RepeatedCommentIsNoOp(triggers: seq<string>, store: Store, c: Comment)
    requires ProcessComment(triggers, store, c).Success?
    ensures var s' := ProcessComment(triggers, store, c).value.store;
            ProcessComment(triggers, s', c) == Success(Update(s', false))
  {
    if Matches(triggers, Lower(c.body)) {
      RecordCommentIdempotent(store, c.authorName, c.authorId, c.subReddit, Lower(c.body));
    }
  }

  /** A kept comment from an author not in a valid store opens a record at
      the end with the next id, and the file is written. */
  lemma {:induction false} NewAuthorKept(triggers: seq<string>, store: Store, c: Comment)
    requires Valid(store)
    requires Matches(triggers, Lower(c.body)) && !HasAuthor(store, c.authorId)
    ensures ProcessComment(triggers, store, c)
              == Success(Update(store + [Record(store[|store| - 1].id + 1, c.authorName, c.authorId, c.subReddit, [Lower(c.body)])], true))
  {
    MaxIdIsLast(store);
  }

  /** A comment whose lowercased body its author already has is dropped. */
  lemma {:induction false} KnownTextDropped(triggers: seq<string>, store: Store, c: Comment)
    requires FindByAuthor(store, c.authorId).Some?
    requires Lower(c.body) in store[FindByAuthor(store, c.authorId).value].comments
    ensures ProcessComment(triggers, store, c) == Success(Update(store, false))
  {
  }

  /** After a new author's record is added, that author is found at the
      end, and every other author absent before is still absent. */
  lemma {:induction false} AfterNewRecord(store: Store, rec: Record, other: string)
    requires !HasAuthor(store, rec.authorId) && !HasAuthor(store, other) && other != rec.authorId
    ensures FindByAuthor(store + [rec], rec.authorId) == Some(|store|)
    ensures !HasAuthor(store + [rec], other)
  {
    var s' := store + [rec];
    assert forall j :: 0 <= j < |store| ==> s'[j] == store[j];
    assert s'[|store|].authorId == rec.authorId;
    assert HasAuthor(s', rec.authorId);
  }

  /** Three comments consumed one after the other. */
  lemma {:induction false} ConsumeThree(triggers: seq<string>, s0: Store, s1: Store, s2: Store, s3: Store,
                                        w1: bool, w2: bool, w3: bool, c1: Comment, c2: Comment, c3: Comment)
    requires ProcessComment(triggers, s0, c1) == Success(Update(s1, w1))
    requires ProcessComment(triggers, s1, c2) == Success(Update(s2, w2))
    requires ProcessComment(triggers, s2, c3) == Success(Update(s3, w3))
    ensures Consume(triggers, s0, [c1, c2, c3])
              == Run(s3, (if w1 then 1 else 0) + (if w2 then 1 else 0) + (if w3 then 1 else 0), None)
  {
    var cs := [c1, c2, c3];
    assert cs[1..][1..][1..] == [];
    assert Consume(triggers, s3, cs[1..][1..][1..]) == Run(s3, 0, None);
    ConsumeFirst(triggers, s2, cs[1..][1..]);
    ConsumeFirst(triggers, s1, cs[1..]);
    ConsumeFirst(triggers, s0, cs);
  }

  /** The situation of `TwinsThenNewAuthor`: two kept comments from one
      author new to a valid store, agreeing up to case, then a kept comment
      from a second new author. */
  ghost predicate TwinsPremises(triggers: seq<string>, store: Store, c1: Comment, c2: Comment, c3: Comment) {
    && Valid(store)
    && c2.authorId == c1.authorId && Lower(c2.body) == Lower(c1.body)
    && Matches(triggers, Lower(c1.body)) && Matches(triggers, Lower(c3.body))
    && !HasAuthor(store, c1.authorId) && !HasAuthor(store, c3.authorId) && c3.authorId != c1.authorId
  }

  /** The record `TwinsThenNewAuthor` opens for `c`, with id `id`. */
  function Opened(c: Comment, id: int): Record {
    Record(id, c.authorName, c.authorId, c.subReddit, [Lower(c.body)])
  }

  /** Two comments from one new author whose bodies agree up to case, then
      a kept comment from another new author: the first author's record holds
      the lowercased text once, the second author's record comes after it
      with the next id, and the file is written twice. */
  lemma {:induction false} TwinsThenNewAuthor(triggers: seq<string>, store: Store, c1: Comment, c2: Comment, c3: Comment)
    requires TwinsPremises(triggers, store, c1, c2, c3)
    ensures var last := store[|store| - 1].id;
            Consume(triggers, store, [c1, c2, c3])
              == Run(store + [Opened(c1, last + 1), Opened(c3, last + 2)], 2, None)
  {
    var last := store[|store| - 1].id;
    var r1 := Opened(c1, last + 1);
    var r3 := Opened(c3, last + 2);
    assert store + [r1] + [r3] == store + [r1, r3];
    TwinsFirst(triggers, store, c1, c2, c3);
    TwinsSecond(triggers, store, c1, c2, c3);
    TwinsThird(triggers, store, c1, c2, c3);
    ConsumeThree(triggers, store, store + [r1], store + [r1], store + [r1] + [r3], true, false, true, c1, c2, c3);
  }

  lemma {:induction false} TwinsFirst(triggers: seq<string>, store: Store, c1: Comment, c2: Comment, c3: Comment)
    requires TwinsPremises(triggers, store, c1, c2, c3)
    ensures ProcessComment(triggers, store, c1) == Success(Update(store + [Opened(c1, store[|store| - 1].id + 1)], true))
  {
    NewAuthorKept(triggers, store, c1);
  }

  lemma {:induction false} TwinsSecond(triggers: seq<string>, store: Store, c1: Comment, c2: Comment, c3: Comment)
    requires TwinsPremises(triggers, store, c1, c2, c3)
    ensures var s1 := store + [Opened(c1, store[|store| - 1].id + 1)];
            ProcessComment(triggers, s1, c2) == Success(Update(s1, false))
  {
    var r1 := Opened(c1, store[|store| - 1].id + 1);
    AfterNewRecord(store, r1, c3.authorId);
    KnownTextDropped(triggers, store + [r1], c2);
  }

  lemma {:induction false} TwinsThird(triggers: seq<string>, store: Store, c1: Comment, c2: Comment, c3: Comment)
    requires TwinsPremises(triggers, store, c1, c2, c3)
    ensures var last := store[|store| - 1].id;
            var s1 := store + [Opened(c1, last + 1)];
            ProcessComment(triggers, s1, c3) == Success(Update(s1 + [Opened(c3, last + 2)], true))
  {
    var r1 := Opened(c1, store[|store| - 1].id + 1);
    AfterNewRecord(store, r1, c3.authorId);
    NewRecordKeepsValid(store, r1);
    NewAuthorKept(triggers, store + [r1], c3);
  }

  /** The trigger list of `Scenario`. */
  function ScenarioTriggers(): seq<string> { ["help", "bug"] }

  /** The three comments of `Scenario`: one from `u1` in mixed case, its
      lowercase twin, and one from `u2`. */
  const AnnMixed := Comment("ann", "u1", "I need HELP please", "r1")
  const AnnSame := Comment("ann", "u1", "I need help please", "r1")
  const BobBug := Comment("bob", "u2", "found a bug", "r2")

  lemma ScenarioLowerMixed()
    ensures Lower(AnnMixed.body) == "i need help please"
  {
    LowerPointwise(AnnMixed.body, "i need help please");
  }

  lemma ScenarioLowerSame()
    ensures Lower(AnnSame.body) == "i need help please"
  {
    LowerPointwise(AnnSame.body, "i need help please");
  }

  lemma ScenarioLowerBug()
    ensures Lower(BobBug.body) == "found a bug"
  {
    LowerPointwise(BobBug.body, "found a bug");
  }

  lemma ScenarioKept()
    ensures Matches(ScenarioTriggers(), "i need help please")
    ensures Matches(ScenarioTriggers(), "found a bug")
  {
    assert OccursAt("help", "i need help please", 7);
    assert OccursAt("bug", "found a bug", 8);
  }

  /** The three comments of `Scenario` meet the premises of
      `TwinsThenNewAuthor` on the seed. */
  lemma ScenarioPremises()
    ensures Lower(AnnMixed.body) == "i need help please" && Lower(BobBug.body) == "found a bug"
    ensures TwinsPremises(ScenarioTriggers(), Seed(), AnnMixed, AnnSame, BobBug)
  {
    ScenarioLowerMixed();
    ScenarioLowerSame();
    ScenarioLowerBug();
    ScenarioKept();
    ScenarioNewAuthors();
  }

  lemma ScenarioNewAuthors()
    ensures !HasAuthor(Seed(), AnnMixed.authorId) && !HasAuthor(Seed(), BobBug.authorId)
  {
    SeedAuthor(AnnMixed.authorId);
    SeedAuthor(BobBug.authorId);
    assert |AnnMixed.authorId| != |"JohnDoe"| && |BobBug.authorId| != |"JohnDoe"|;
  }

  /** The listener started on a fresh store with triggers `help` and `bug`:
      a comment in mixed case and its lowercase twin from one author yield
      one stored comment, and a second author gets a record of its own. The
      placeholder record of the seed stays first, so three records remain. */
  lemma Scenario()
    ensures Consume(ScenarioTriggers(), Seed(), [AnnMixed, AnnSame, BobBug])
              == Run(Seed() + [Record(2, "ann", "u1", "r1", ["i need help please"]),
                               Record(3, "bob", "u2", "r2", ["found a bug"])], 2, None)
  {
    ScenarioPremises();
    assert Seed()[|Seed()| - 1].id == 1;
    assert Opened(AnnMixed, 2) == Record(2, "ann", "u1", "r1", ["i need help please"]);
    assert Opened(BobBug, 3) == Record(3, "bob", "u2", "r2", ["found a bug"]);
    TwinsThenNewAuthor(ScenarioTriggers(), Seed(), AnnMixed, AnnSame, BobBug);
  }
}

=== FILE: outcomes.dfy ===
/** Failure-carrying wrappers used in place of the exceptions of the listener:
    `Option` for "no such record", `Result` for an operation that can raise. */
module Outcomes {

  datatype Option<+T> = None | Some(value: T)

  datatype Result<+R, +E> = Success(value: R) | Failure(error: E)
}

=== FILE: rotation.dfy ===
/** Daily rotation: the store and log file names carry the date as
    `YYYYMMDD`, and a date change at the top of the listening loop switches
    both names to the new day. */
module Rotation {
  import opened Outcomes

  /** A calendar date as Python's `datetime.date` holds it. */
  datatype Date = Date(year: int, month: int, day: int)

  predicate IsLeapYear(y: int) {
    (y % 4 == 0 && y % 100 != 0) || y % 400 == 0
  }

  function DaysInMonth(y: int, m: int): int
    requires 1 <= m <= 12
  {
    if m == 2 then (if IsLeapYear(y) then 29 else 28)
    else if m == 4 || m == 6 || m == 9 || m == 11 then 30
    else 31
  }

  /** The dates `datetime.date` can represent (years 1 to 9999). */
  predicate ValidDate(d: Date) {
    && 1 <= d.year <= 9999
    && 1 <= d.month <= 12
    && 1 <= d.day <= DaysInMonth(d.year, d.month)
  }

  function Pow10(w: nat): (p: nat)
    ensures p >= 1
  {
    if w == 0 then 1 else 10 * Pow10(w - 1)
  }

  predicate IsDigit(c: char) {
    '0' <= c <= '9'
  }

  predicate AllDigits(s: string) {
    forall k :: 0 <= k < |s| ==> IsDigit(s[k])
  }

  /** The number a string of decimal digits denotes. */
  function ValueOf(s: string): nat
    requires AllDigits(s)
  {
    if |s| == 0 then 0 else 10 * ValueOf(s[..|s| - 1]) + (s[|s| - 1] as int - '0' as int)
  }

  /** `n` in decimal, zero-padded to exactly `width` digits (`%02d`, `%04d`);
      reading the digits back gives `n`. */
  function Digits(n: nat, width: nat): (s: string)
    requires n < Pow10(width)
    ensures |s| == width && AllDigits(s)
    ensures ValueOf(s) == n
  {
    if width == 0 then
      ""
    else
      var s := Digits(n / 10, width - 1) + [('0' as int + n % 10) as char];
      assert s[..|s| - 1] == Digits(n / 10, width - 1);
      s
  }

  /** `strftime("%Y%m%d")`: eight digits, year then month then day. */
  function DateStamp(d: Date): (s: string)
    requires ValidDate(d)
    ensures |s| == 8 && AllDigits(s)
    ensures ParseDateStamp(s) == Some(d)
  {
    var y := Digits(d.year, 4);
    var m := Digits(d.month, 2);
    var dd := Digits(d.day, 2);
    var s := y + m + dd;
    assert s[..4] == y && s[4..6] == m && s[6..] == dd;
    s
  }

  /** Reads an eight-digit `YYYYMMDD` back into a date; `None` for anything
      that is not a valid date in that form. */
  function ParseDateStamp(s: string): (r: Option<Date>)
    ensures r.Some? ==> ValidDate(r.value)
  {
    if |s| == 8 && AllDigits(s) then
      var d := Date(ValueOf(s[..4]), ValueOf(s[4..6]), ValueOf(s[6..]));
      if ValidDate(d) then Some(d) else None
    else
      None
  }

  /** Different days never share a stamp, so never share a file. */
  lemma DateStampInjective(d1: Date, d2: Date)
    requires ValidDate(d1) && ValidDate(d2)
    requires DateStamp(d1) == DateStamp(d2)
    ensures d1 == d2
  {
  }

  /** `'outJsonFile' + YYYYMMDD + '.json'`. */
  function StoreFileName(d: Date): (name: string)
    requires ValidDate(d)
    ensures ParseFileName("outJsonFile", ".json", name) == Some(d)
  {
    Named("outJsonFile", d, ".json")
  }

  /** `'log' + YYYYMMDD + '.txt'`, the log name chosen at start-up. */
  function InitialLogFileName(d: Date): (name: string)
    requires ValidDate(d)
    ensures ParseFileName("log", ".txt", name) == Some(d)
  {
    Named("log", d, ".txt")
  }

  /** `'Log' + YYYYMMDD + '.txt'`, the log name chosen on a date change
      (capital `L`, unlike the start-up name). */
  function RotatedLogFileName(d: Date): (name: string)
    requires ValidDate(d)
    ensures ParseFileName("Log", ".txt", name) == Some(d)
  {
    Named("Log", d, ".txt")
  }

  function Named(prefix: string, d: Date, suffix: string): (name: string)
    requires ValidDate(d)
    ensures ParseFileName(prefix, suffix, name) == Some(d)
  {
    var name := prefix + DateStamp(d) + suffix;
    assert name[..|prefix|] == prefix;
    assert name[|prefix|..|prefix| + 8] == DateStamp(d);
    assert name[|prefix| + 8..] == suffix;
    name
  }

  /** The date a dated file name carries, if it has the given prefix and
      suffix around a valid `YYYYMMDD`. */
  function ParseFileName(prefix: string, suffix: string, name: string): (r: Option<Date>)
    ensures r.Some? ==> ValidDate(r.value)
  {
    if |name| == |prefix| + 8 + |suffix| && name[..|prefix|] == prefix && name[|prefix| + 8..] == suffix then
      ParseDateStamp(name[|prefix|..|prefix| + 8])
    else
      None
  }

  /** A process that starts on day `d` and one that rotates into day `d`
      log to two different files. */
  lemma LogNamesDiffer(d: Date)
    requires ValidDate(d)
    ensures InitialLogFileName(d) != RotatedLogFileName(d)
  {
    assert InitialLogFileName(d)[0] != RotatedLogFileName(d)[0];
  }

  /** The rotation state: `prev_date`, `jsonFileName` and the active log
      file name. */
  datatype Files = Files(prevDate: Date, storeFile: string, logFile: string)

  /** Both file names name the day held in `prevDate`. */
  predicate Consistent(f: Files) {
    && ValidDate(f.prevDate)
    && f.storeFile == StoreFileName(f.prevDate)
    && (f.logFile == InitialLogFileName(f.prevDate) || f.logFile == RotatedLogFileName(f.prevDate))
  }

  /** The names chosen before the loop starts. */
  function Start(today: Date): (f: Files)
    requires ValidDate(today)
    ensures f.prevDate == today && Consistent(f)
    ensures ParseFileName("outJsonFile", ".json", f.storeFile) == Some(today)
    ensures ParseFileName("log", ".txt", f.logFile) == Some(today)
  {
    Files(today, StoreFileName(today), InitialLogFileName(today))
  }

  datatype Rotation = Rotation(files: Files, rotated: bool)

  /** The date check at the top of each pass of the loop. On a new day both
      names move to that day and `prev_date` becomes it; on the same day
      nothing changes. */
  function CheckRotation(f: Files, today: Date): (r: Rotation)
    requires ValidDate(today)
    ensures r.files.prevDate == today
    ensures r.rotated <==> today != f.prevDate
    ensures !r.rotated ==> r.files == f
    ensures r.rotated ==> ParseFileName("outJsonFile", ".json", r.files.storeFile) == Some(today)
    ensures r.rotated ==> ParseFileName("Log", ".txt", r.files.logFile) == Some(today)
    ensures Consistent(f) ==> Consistent(r.files)
    ensures Consistent(f) && r.rotated ==> r.files.storeFile != f.storeFile
  {
    if today != f.prevDate then
      Rotation(Files(today, StoreFileName(today), RotatedLogFileName(today)), true)
    else
      Rotation(f, false)
  }

  /** Checking the same date twice rotates at most once. */
  lemma CheckRotationIdempotent(f: Files, today: Date)
    requires ValidDate(today)
    ensures var f' := CheckRotation(f, today).files;
            CheckRotation(f', today) == Rotation(f', false)
  {
  }
}

=== FILE: store.dfy ===
/** The in-memory store of the listener: a list of per-author records, its
    seed template, the lookup by author id and the single update applied to
    each kept comment. */
module Store {
  import opened Outcomes

  /** One entry of the JSON store: `{id, author_name, author_id, subReddit,
      commentsList}`. */
  datatype Record = Record(id: int, authorName: string, authorId: string, subReddit: string, comments: seq<string>)

  type Store = seq<Record>

  /** The error `max()` raises on an empty list. */
  datatype StoreError = EmptyStore

  /** What an update hands back: the new store, and whether the store file
      is to be rewritten. */
  datatype Update = Update(store: Store, write: bool)

  /** The template written to a fresh dated file: a single placeholder record. */
  function Seed(): (s: Store)
    ensures |s| == 1 && s[0].id == 1 && s[0].authorId == "JohnDoe" && s[0].comments == ["None"]
    ensures Valid(s)
  {
    [Record(1, "John Doe", "JohnDoe", "test", ["None"])]
  }

  /** The seed holds the placeholder author and no other. */
  lemma SeedAuthor(authorId: string)
    ensures HasAuthor(Seed(), authorId) <==> authorId == "JohnDoe"
  {
    if authorId == "JohnDoe" {
      assert Seed()[0].authorId == authorId;
    }
  }

  ghost predicate HasAuthor(store: Store, authorId: string) {
    exists j :: 0 <= j < |store| && store[j].authorId == authorId
  }

  /** Scan from index `from` for the first record of `authorId`. */
  function FindFrom(store: Store, authorId: string, from: nat): (r: Option<nat>)
    requires from <= |store|
    ensures r.Some? ==> from <= r.value < |store| && store[r.value].authorId == authorId
    ensures r.Some? ==> forall j :: from <= j < r.value ==> store[j].authorId != authorId
    ensures r.None? <==> forall j :: from <= j < |store| ==> store[j].authorId != authorId
    decreases |store| - from
  {
    if from == |store| then None
    else if store[from].authorId == authorId then Some(from)
    else FindFrom(store, authorId, from + 1)
  }

  /** `next(user for user in data if user['author_id'] == authorId)`, with
      "no such user" as `None` rather than an exception: the index of the
      first record of that author. */
  function FindByAuthor(store: Store, authorId: string): (r: Option<nat>)
    ensures r.Some? ==> r.value < |store| && store[r.value].authorId == authorId
    ensures r.Some? ==> forall j :: 0 <= j < r.value ==> store[j].authorId != authorId
    ensures r.None? <==> !HasAuthor(store, authorId)
  {
    FindFrom(store, authorId, 0)
  }

  /** The id of `max(data, key=lambda x: x['id'])`: an id held by some record
      and no smaller than any other. */
  function MaxId(store: Store): (m: int)
    requires |store| > 0
    ensures exists j :: 0 <= j < |store| && store[j].id == m
    ensures forall j :: 0 <= j < |store| ==> store[j].id <= m
  {
    if |store| == 1 then
      store[0].id
    else
      var m := MaxId(store[1..]);
      assert forall j :: 1 <= j < |store| ==> store[j] == store[1..][j - 1];
      if store[0].id >= m then store[0].id else m
  }

  /** `text` is among the comments of the record the lookup finds for
      `authorId`. */
  ghost predicate Stored(store: Store, authorId: string, text: string) {
    && FindByAuthor(store, authorId).Some?
    && text in store[FindByAuthor(store, authorId).value].comments
  }

  /** The store after `text` is stored for an author found at index `i`:
      the text is appended to that record's comments unless already there,
      and nothing else changes. */
  ghost predicate AppendedTo(store: Store, store': Store, i: nat, text: string)
    requires i < |store|
  {
    && |store'| == |store|
    && (forall j :: 0 <= j < |store| && j != i ==> store'[j] == store[j])
    && store'[i].id == store[i].id
    && store'[i].authorName == store[i].authorName
    && store'[i].authorId == store[i].authorId
    && store'[i].subReddit == store[i].subReddit
    && store'[i].comments == (if text in store[i].comments then store[i].comments else store[i].comments + [text])
  }

  /** Storing one kept comment (the body of the `try`/`except` on the
      author lookup). A known author gets the text appended unless it is
      already there, with no file write; an unknown author gets a fresh
      record at the end, with an id above every existing one, and the file
      is written. Only an unknown author on an empty store fails, as
      `max()` of an empty list raises. */
  function RecordComment(store: Store, authorName: string, authorId: string, subReddit: string, text: string): (r: Result<Update, StoreError>)
    ensures r.Failure? <==> |store| == 0
    ensures r.Success? ==> (r.value.write <==> !HasAuthor(store, authorId))
    ensures FindByAuthor(store, authorId).Some? ==> r.Success? && AppendedTo(store, r.value.store, FindByAuthor(store, authorId).value, text)
    ensures r.Success? && !HasAuthor(store, authorId) ==>
              && |r.value.store| == |store| + 1
              && r.value.store[..|store|] == store
              && r.value.store[|store|].id == MaxId(store) + 1
              && (forall j :: 0 <= j < |store| ==> store[j].id < r.value.store[|store|].id)
              && r.value.store[|store|] == Record(r.value.store[|store|].id, authorName, authorId, subReddit, [text])
  {
    match FindByAuthor(store, authorId)
    case Some(i) =>
      var rec := store[i];
      if text in rec.comments then
        Success(Update(store, false))
      else
        Success(Update(store[i := rec.(comments := rec.comments + [text])], false))
    case None =>
      if |store| == 0 then
        Failure(EmptyStore)
      else
        Success(Update(store + [Record(MaxId(store) + 1, authorName, authorId, subReddit, [text])], true))
  }

  // ---------------------------------------------------------------------
  // Invariants of a store grown from the seed
  // ---------------------------------------------------------------------

  predicate UniqueAuthorIds(store: Store) {
    forall i, j :: 0 <= i < j < |store| ==> store[i].authorId != store[j].authorId
  }

  predicate UniqueIds(store: Store) {
    forall i, j :: 0 <= i < j < |store| ==> store[i].id != store[j].id
  }

  /** Ids grow strictly along the store, so each new id tops all before it. */
  predicate IdsIncreasing(store: Store) {
    forall i, j :: 0 <= i < j < |store| ==> store[i].id < store[j].id
  }

  predicate NoDuplicates(xs: seq<string>) {
    forall i, j :: 0 <= i < j < |xs| ==> xs[i] != xs[j]
  }

  /** What holds of every store reachable from the seed. */
  predicate Valid(store: Store) {
    && |store| > 0
    && UniqueAuthorIds(store)
    && IdsIncreasing(store)
    && forall j :: 0 <= j < |store| ==> NoDuplicates(store[j].comments)
  }

  lemma IncreasingIdsAreUnique(store: Store)
    requires IdsIncreasing(store)
    ensures UniqueIds(store)
  {
  }

  /** On a valid store the new id is the last record's id plus one. */
  lemma {:induction false} MaxIdIsLast(store: Store)
    requires |store| > 0 && IdsIncreasing(store)
    ensures MaxId(store) == store[|store| - 1].id
  {
    var j :| 0 <= j < |store| && store[j].id == MaxId(store);
    assert store[j].id <= store[|store| - 1].id;
  }

  /** Every update keeps author ids unique, ids increasing and each
      author's comments free of repeats; it never fails on such a store. */
  lemma {:induction false} RecordCommentPreservesValid(store: Store, authorName: string, authorId: string, subReddit: string, text: string)
    requires Valid(store)
    ensures RecordComment(store, authorName, authorId, subReddit, text).Success?
    ensures Valid(RecordComment(store, authorName, authorId, subReddit, text).value.store)
  {
    var s' := RecordComment(store, authorName, authorId, subReddit, text).value.store;
    match FindByAuthor(store, authorId)
    case Some(i) =>
      AppendedKeepsValid(store, s', i, text);
    case None =>
      MaxIdIsLast(store);
      NewRecordKeepsValid(store, s'[|store|]);
      assert s' == store + [s'[|store|]];
  }

  lemma AppendNewKeepsNoDuplicates(cs: seq<string>, text: string)
    requires NoDuplicates(cs) && text !in cs
    ensures NoDuplicates(cs + [text])
  {
    forall a, b | 0 <= a < b < |cs| + 1
      ensures (cs + [text])[a] != (cs + [text])[b]
    {
      if b == |cs| {
        assert cs[a] in cs;
      }
    }
  }

  /** Appending a text to an existing record keeps a store valid. */
  lemma {:induction false} AppendedKeepsValid(store: Store, store': Store, i: nat, text: string)
    requires Valid(store) && i < |store| && AppendedTo(store, store', i, text)
    ensures Valid(store')
  {
    if text !in store[i].comments {
      AppendNewKeepsNoDuplicates(store[i].comments, text);
    }
    forall j | 0 <= j < |store'|
      ensures NoDuplicates(store'[j].comments)
    {
      if j != i {
        assert store'[j] == store[j];
      }
    }
  }

  /** A record for a new author, with an id above the last one and no
      repeated comment, extends a valid store to a valid store. */
  lemma {:induction false} NewRecordKeepsValid(store: Store, rec: Record)
    requires Valid(store) && !HasAuthor(store, rec.authorId)
    requires rec.id > store[|store| - 1].id && NoDuplicates(rec.comments)
    ensures Valid(store + [rec])
  {
    var s' := store + [rec];
    assert forall j :: 0 <= j < |store| ==> s'[j] == store[j];
  }

  /** After an update the author is found, and the text is among the
      comments of the record the lookup finds. */
  lemma {:induction false} RecordCommentStores(store: Store, authorName: string, authorId: string, subReddit: string, text: string)
    requires RecordComment(store, authorName, authorId, subReddit, text).Success?
    ensures Stored(RecordComment(store, authorName, authorId, subReddit, text).value.store, authorId, text)
  {
    var s' := RecordComment(store, authorName, authorId, subReddit, text).value.store;
    if HasAuthor(store, authorId) {
      var i := FindByAuthor(store, authorId).value;
      assert AppendedTo(store, s', i, text);
      assert s'[i].authorId == authorId;
      var i' := FindByAuthor(s', authorId).value;
      assert i' == i by {
        assert forall j :: 0 <= j < |store| && j != i ==> s'[j].authorId == store[j].authorId;
      }
    } else {
      assert s'[|store|].authorId == authorId;
      var i' := FindByAuthor(s', authorId).value;
      assert i' == |store| by {
        assert forall j :: 0 <= j < |store| ==> s'[j] == store[j];
      }
      assert s'[i'].comments == [text];
    }
  }

  /** Storing the same text for the same author a second time changes
      nothing and writes nothing. */
  lemma {:induction false} RecordCommentIdempotent(store: Store, authorName: string, authorId: string, subReddit: string, text: string)
    requires RecordComment(store, authorName, authorId, subReddit, text).Success?
    ensures var s' := RecordComment(store, authorName, authorId, subReddit, text).value.store;
            RecordComment(s', authorName, authorId, subReddit, text) == Success(Update(s', false))
  {
    RecordCommentStores(store, authorName, authorId, subReddit, text);
  }

  /** The same text from a different author is still stored: the duplicate
      check is per author, so two records can hold identical text. */
  lemma {:induction false} SameTextTwoAuthors(store: Store, authorName: string, authorId: string, subReddit: string,
                                              authorName2: string, authorId2: string, subReddit2: string, text: string)
    requires Valid(store)
    requires !HasAuthor(store, authorId) && !HasAuthor(store, authorId2) && authorId != authorId2
    ensures var s1 := RecordComment(store, authorName, authorId, subReddit, text).value.store;
            var s2 := RecordComment(s1, authorName2, authorId2, subReddit2, text).value.store;
            |s2| == |store| + 2 && s2[|store|].comments == [text] && s2[|store| + 1].comments == [text]
  {
    var s1 := RecordComment(store, authorName, authorId, subReddit, text).value.store;
    assert !HasAuthor(s1, authorId2) by {
      assert forall j :: 0 <= j < |store| ==> s1[j] == store[j];
    }
  }

  // ---------------------------------------------------------------------
  // Growth: an update only ever adds
  // ---------------------------------------------------------------------

  /** `store'` grows out of `store`: no record is lost or reordered, no
      record's identity changes, and each comment list only gets longer at
      its end. */
  ghost predicate Extends(store: Store, store': Store) {
    && |store| <= |store'|
    && forall j :: 0 <= j < |store| ==>
         && store'[j].id == store[j].id
         && store'[j].authorName == store[j].authorName
         && store'[j].authorId == store[j].authorId
         && store'[j].subReddit == store[j].subReddit
         && store[j].comments <= store'[j].comments
  }

  lemma ExtendsReflexive(store: Store)
    ensures Extends(store, store)
  {
  }

  lemma ExtendsTransitive(a: Store, b: Store, c: Store)
    requires Extends(a, b) && Extends(b, c)
    ensures Extends(a, c)
  {
  }

  /** A stored comment stays stored as the store grows: the lookup keeps
      finding the same record, whose comment list only grows at its end. */
  lemma {:induction false} StoredStable(store: Store, store': Store, authorId: string, text: string)
    requires Extends(store, store') && Stored(store, authorId, text)
    ensures Stored(store', authorId, text)
  {
    var i := FindByAuthor(store, authorId).value;
    assert store'[i].authorId == authorId;
    assert FindByAuthor(store', authorId) == Some(i);
    assert store[i].comments <= store'[i].comments;
  }

  /** Every update only adds to the store: the file written after it holds
      everything the old one did. */
  lemma {:induction false} RecordCommentExtends(store: Store, authorName: string, authorId: string, subReddit: string, text: string)
    requires RecordComment(store, authorName, authorId, subReddit, text).Success?
    ensures Extends(store, RecordComment(store, authorName, authorId, subReddit, text).value.store)
  {
    var s' := RecordComment(store, authorName, authorId, subReddit, text).value.store;
    if HasAuthor(store, authorId) {
      assert AppendedTo(store, s', FindByAuthor(store, authorId).value, text);
    } else {
      assert forall j :: 0 <= j < |store| ==> s'[j] == store[j];
    }
  }
}

=== FILE: triggers.dfy ===
/** The trigger list: lines of the trigger file are stripped and lowercased,
    and a comment is kept when some trigger is a substring of its lowercased
    body. */
module Triggers {

  /** The characters Python's `str.isspace` accepts, i.e. what an argument-less
      `str.strip()` removes from both ends. */
  predicate IsSpace(c: char) {
    || c == ' '
    || ('\t' <= c <= '\r')
    || ('\U{1C}' <= c <= '\U{1F}')
    || c == '\U{85}'
    || c == '\U{A0}'
    || c == '\U{1680}'
    || ('\U{2000}' <= c <= '\U{200A}')
    || c == '\U{2028}'
    || c == '\U{2029}'
    || c == '\U{202F}'
    || c == '\U{205F}'
    || c == '\U{3000}'
  }

  predicate AllSpace(s: string) {
    forall k :: 0 <= k < |s| ==> IsSpace(s[k])
  }

  /** No whitespace at either end: what `str.strip()` leaves behind. */
  predicate IsStripped(s: string) {
    |s| == 0 || (!IsSpace(s[0]) && !IsSpace(s[|s| - 1]))
  }

  /** The first index at or after `i` that does not hold whitespace (or
      `|s|`): the left scan of `str.strip()`. */
  function SkipSpaces(s: string, i: nat): (j: nat)
    requires i <= |s|
    ensures i <= j <= |s|
    ensures forall k :: i <= k < j ==> IsSpace(s[k])
    ensures j < |s| ==> !IsSpace(s[j])
    decreases |s| - i
  {
    if i < |s| && IsSpace(s[i]) then SkipSpaces(s, i + 1) else i
  }

  /** The end of `s[lo..j]` once its trailing whitespace is dropped: the
      right scan of `str.strip()`, which stops at `lo`. */
  function SkipSpacesBack(s: string, lo: nat, j: nat): (e: nat)
    requires lo <= j <= |s|
    ensures lo <= e <= j
    ensures forall k :: e <= k < j ==> IsSpace(s[k])
    ensures lo < e ==> !IsSpace(s[e - 1])
    decreases j
  {
    if lo < j && IsSpace(s[j - 1]) then SkipSpacesBack(s, lo, j - 1) else j
  }

  /** `r` is what remains of `s` once the whitespace before index `i` and
      after index `i + |r|` is cut away. */
  predicate CutFrom(r: string, s: string, i: nat) {
    && i + |r| <= |s|
    && r == s[i..i + |r|]
    && (forall k :: 0 <= k < i ==> IsSpace(s[k]))
    && (forall k :: i + |r| <= k < |s| ==> IsSpace(s[k]))
  }

  /** Python's `str.strip()`: the result is the slice of `s` left once the
      whitespace at both ends is removed, and it has no whitespace at
      either end. */
  function Strip(s: string): (r: string)
    ensures IsStripped(r)
    ensures exists i: nat :: CutFrom(r, s, i)
  {
    var i := SkipSpaces(s, 0);
    var e := SkipSpacesBack(s, i, |s|);
    var r := s[i..e];
    assert CutFrom(r, s, i);
    r
  }

  /** Lowercasing of one character, as `str.lower()` does for the ASCII and
      Latin-1 upper-case letters. */
  function LowerChar(c: char): char {
    if 'A' <= c <= 'Z' then
      (c as int + 32) as char
    else if '\U{C0}' <= c <= '\U{DE}' && c != '\U{D7}' then
      (c as int + 32) as char
    else
      c
  }

  predicate IsLower(s: string) {
    forall k :: 0 <= k < |s| ==> LowerChar(s[k]) == s[k]
  }

  /** Python's `str.lower()`: the result is already lower case, agrees with
      `s` up to case at every position and keeps every whitespace position. */
  function Lower(s: string): (r: string)
    ensures |r| == |s|
    ensures IsLower(r)
    ensures forall k :: 0 <= k < |s| ==> LowerChar(r[k]) == LowerChar(s[k])
    ensures forall k :: 0 <= k < |s| ==> (IsSpace(r[k]) <==> IsSpace(s[k]))
  {
    if |s| == 0 then [] else [LowerChar(s[0])] + Lower(s[1..])
  }

  /** `Lower` is determined character by character. */
  lemma LowerPointwise(s: string, t: string)
    requires |s| == |t|
    requires forall k :: 0 <= k < |s| ==> LowerChar(s[k]) == t[k]
    ensures Lower(s) == t
  {
  }

  /** `t` is the lowercase of what remains of `line` once the whitespace
      before index `i` and after index `i + |t|` is cut away. */
  predicate LoweredCutFrom(t: string, line: string, i: nat) {
    && i + |t| <= |line|
    && (forall k :: 0 <= k < |t| ==> t[k] == LowerChar(line[i + k]))
    && (forall k :: 0 <= k < i ==> IsSpace(line[k]))
    && (forall k :: i + |t| <= k < |line| ==> IsSpace(line[k]))
  }

  /** A line of the trigger file after `line.strip()` then `word.lower()`:
      the lowercased middle of the line, between whitespace at both ends. */
  function Normalize(line: string): (t: string)
    ensures IsTrigger(t)
    ensures exists i: nat :: LoweredCutFrom(t, line, i)
  {
    var s := Strip(line);
    LowerKeepsStripped(s);
    LowerOfCut(s, line);
    Lower(s)
  }

  /** Lowercasing a stripped slice of `line` gives its lowercased middle. */
  lemma LowerOfCut(s: string, line: string)
    requires exists i: nat :: CutFrom(s, line, i)
    ensures exists i: nat :: LoweredCutFrom(Lower(s), line, i)
  {
    var i: nat :| CutFrom(s, line, i);
    assert LoweredCutFrom(Lower(s), line, i);
  }

  /** `Normalize`'s contract pins its result: a stripped lower-case
      string that is the lowercased middle of `line` is `Normalize(line)`. */
  lemma {:induction false} NormalizeUnique(line: string, t: string, i: nat)
    requires IsTrigger(t) && LoweredCutFrom(t, line, i)
    ensures Normalize(line) == t
  {
    var u := Normalize(line);
    var j: nat :| LoweredCutFrom(u, line, j);
    SameLoweredCut(line, t, i, u, j);
  }

  lemma {:induction false} SameLoweredCut(line: string, t: string, i: nat, u: string, j: nat)
    requires IsStripped(t) && LoweredCutFrom(t, line, i)
    requires IsStripped(u) && LoweredCutFrom(u, line, j)
    ensures t == u
  {
    if |t| > 0 {
      LowerCharKeepsSpace(line[i]);
      LowerCharKeepsSpace(line[i + |t| - 1]);
    }
    if |u| > 0 {
      LowerCharKeepsSpace(line[j]);
      LowerCharKeepsSpace(line[j + |u| - 1]);
    }
    SameMiddle(line, i, |t|, j, |u|);
    assert forall k :: 0 <= k < |t| ==> t[k] == u[k];
  }

  /** A middle part of `line` that starts and ends off whitespace, with only
      whitespace around it, is the same part whichever way it is found. */
  lemma {:induction false} SameMiddle(line: string, i: nat, n: nat, j: nat, m: nat)
    requires i + n <= |line| && j + m <= |line|
    requires forall k :: 0 <= k < i ==> IsSpace(line[k])
    requires forall k :: i + n <= k < |line| ==> IsSpace(line[k])
    requires forall k :: 0 <= k < j ==> IsSpace(line[k])
    requires forall k :: j + m <= k < |line| ==> IsSpace(line[k])
    requires n > 0 ==> !IsSpace(line[i]) && !IsSpace(line[i + n - 1])
    requires m > 0 ==> !IsSpace(line[j]) && !IsSpace(line[j + m - 1])
    ensures n == m && (n > 0 ==> i == j)
  {
  }

  lemma LowerCharKeepsSpace(c: char)
    ensures IsSpace(LowerChar(c)) <==> IsSpace(c)
  {
  }

  lemma LowerKeepsStripped(s: string)
    requires IsStripped(s)
    ensures IsStripped(Lower(s))
  {
    if |s| > 0 {
      assert IsSpace(Lower(s)[0]) <==> IsSpace(s[0]);
      assert IsSpace(Lower(s)[|s| - 1]) <==> IsSpace(s[|s| - 1]);
    }
  }

  /** The shape of every normalised trigger. */
  predicate IsTrigger(t: string) {
    IsStripped(t) && IsLower(t)
  }

  /** The trigger list built from the lines of the trigger file, one trigger
      per line, in file order. */
  function NormalizeTriggers(lines: seq<string>): (ts: seq<string>)
    ensures |ts| == |lines|
    ensures forall k :: 0 <= k < |ts| ==> ts[k] == Normalize(lines[k])
    ensures forall k :: 0 <= k < |ts| ==> IsTrigger(ts[k])
  {
    seq(|lines|, k requires 0 <= k < |lines| => Normalize(lines[k]))
  }

  lemma {:induction false} LowerOfLower(s: string)
    requires IsLower(s)
    ensures Lower(s) == s
  {
    if |s| > 0 {
      LowerOfLower(s[1..]);
    }
  }

  lemma {:induction false} StripOfStripped(s: string)
    requires IsStripped(s)
    ensures Strip(s) == s
  {
    var r := Strip(s);
    var i: nat :| CutFrom(r, s, i);
    assert i == 0 by {
      if |s| > 0 {
        assert !IsSpace(s[0]);
      }
    }
    assert |r| == |s| by {
      if |s| > 0 {
        assert !IsSpace(s[|s| - 1]);
      }
    }
  }

  /** A normalised trigger is its own strip-then-lowercase. */
  lemma {:induction false} NormalizeFixesTriggers(t: string)
    requires IsTrigger(t)
    ensures Normalize(t) == t
  {
    StripOfStripped(t);
    LowerOfLower(t);
  }

  /** Normalising a line twice gives the same trigger as normalising it once. */
  lemma NormalizeIdempotent(line: string)
    ensures Normalize(Normalize(line)) == Normalize(line)
  {
    NormalizeFixesTriggers(Normalize(line));
  }

  /** Normalising the whole trigger list twice is the same as once. */
  lemma NormalizeTriggersIdempotent(lines: seq<string>)
    ensures NormalizeTriggers(NormalizeTriggers(lines)) == NormalizeTriggers(lines)
  {
    var ts := NormalizeTriggers(lines);
    forall k | 0 <= k < |ts|
      ensures NormalizeTriggers(ts)[k] == ts[k]
    {
      NormalizeFixesTriggers(ts[k]);
    }
  }

  /** `needle` sits in `hay` starting at index `i`. */
  predicate OccursAt(needle: string, hay: string, i: nat) {
    i + |needle| <= |hay| && hay[i..i + |needle|] == needle
  }

  /** Python's `needle in hay` on two strings: substring containment. */
  ghost predicate Occurs(needle: string, hay: string) {
    exists i: nat :: OccursAt(needle, hay, i)
  }

  /** Decides substring containment by trying every start position. */
  function Contains(needle: string, hay: string): (r: bool)
    ensures r <==> Occurs(needle, hay)
    decreases |hay|
  {
    if |needle| > |hay| then
      false
    else if hay[..|needle|] == needle then
      assert OccursAt(needle, hay, 0);
      true
    else
      var r := Contains(needle, hay[1..]);
      assert r ==> Occurs(needle, hay) by {
        if r {
          var i: nat :| OccursAt(needle, hay[1..], i);
          assert hay[i + 1..i + 1 + |needle|] == hay[1..][i..i + |needle|];
          assert OccursAt(needle, hay, i + 1);
        }
      }
      assert Occurs(needle, hay) ==> r by {
        if Occurs(needle, hay) {
          var i: nat :| OccursAt(needle, hay, i);
          assert i != 0;
          assert hay[1..][i - 1..i - 1 + |needle|] == hay[i..i + |needle|];
          assert OccursAt(needle, hay[1..], i - 1);
        }
      }
      r
  }

  /** `any(word in text for word in triggers)`: some trigger is a substring
      of the (already lowercased) comment text. */
  function Matches(triggers: seq<string>, text: string): (r: bool)
    ensures r <==> exists k :: 0 <= k < |triggers| && Occurs(triggers[k], text)
  {
    if |triggers| == 0 then
      false
    else
      var r := Contains(triggers[0], text) || Matches(triggers[1..], text);
      assert r ==> exists k :: 0 <= k < |triggers| && Occurs(triggers[k], text) by {
        if !Contains(triggers[0], text) && Matches(triggers[1..], text) {
          var k :| 0 <= k < |triggers[1..]| && Occurs(triggers[1..][k], text);
          assert Occurs(triggers[k + 1], text);
        }
      }
      assert (exists k :: 0 <= k < |triggers| && Occurs(triggers[k], text)) ==> r by {
        if exists k :: 0 <= k < |triggers| && Occurs(triggers[k], text) {
          var k :| 0 <= k < |triggers| && Occurs(triggers[k], text);
          if k > 0 {
            assert triggers[1..][k - 1] == triggers[k];
          }
        }
      }
      r
  }

  /** An empty trigger list keeps no comment. */
  lemma NoTriggersNeverMatch(text: string)
    ensures !Matches([], text)
  {
  }

  /** A blank line in the trigger file becomes the empty trigger, which is a
      substring of every comment, so then every comment is kept. */
  lemma {:induction false} EmptyTriggerMatchesAll(triggers: seq<string>, text: string)
    requires "" in triggers
    ensures Matches(triggers, text)
  {
    var k :| 0 <= k < |triggers| && triggers[k] == "";
    assert OccursAt(triggers[k], text, 0);
  }

  /** A line holding only whitespace strips to the empty string. */
  lemma {:induction false} StripBlank(s: string)
    requires AllSpace(s)
    ensures Strip(s) == ""
  {
    var i: nat :| CutFrom(Strip(s), s, i);
  }

  /** A blank line in the trigger file yields the empty trigger, so every
      comment is then kept. */
  lemma {:induction false} BlankLineMatchesAll(lines: seq<string>, text: string)
    requires exists k :: 0 <= k < |lines| && AllSpace(lines[k])
    ensures Matches(NormalizeTriggers(lines), text)
  {
    var k :| 0 <= k < |lines| && AllSpace(lines[k]);
    StripBlank(lines[k]);
    assert NormalizeTriggers(lines)[k] == "";
    EmptyTriggerMatchesAll(NormalizeTriggers(lines), text);
  }
}
